=== FILE: README.md ===
# pki-2fa-microservice in Dafny

A model of the core of the PKI-based two-factor authentication microservice.
A client submits its TOTP seed encrypted with the service's RSA public key.
The service decrypts it with RSA-OAEP (SHA-256), checks that it is 64
lower-case hex digits, and stores it in a seed file. From then on it hands out
the current six-digit TOTP code and verifies codes, one time step either side,
following RFC 6238 (30-second steps, T0 = 0) over the HOTP of RFC 4226 with
HMAC-SHA1.

Modules:

- `Wrappers`: `Option` and `Result`.
- `Text`: Python's `str.strip`, `str.lower` and `str.isdigit`, restricted to ASCII.
- `Bytes`: bytes and their big-endian bits.
- `Hex`: strict hex-pair decoding, and CPython's `bytes.fromhex`, which skips whitespace between pairs.
- `Base32`: the Base32 alphabet and padding of section 6 of RFC 4648, encoder and decoder, with the round trip proved for every byte string.
- `TotpUtils` (`scripts/authsvc/totp_utils.py`): the seed-to-secret conversion, code generation, the seconds left in a step, the payload, and verification with pyotp's window scan.
- `SeedDecryption` (`scripts/decrypt_seed.py`): the decryption pipeline and its seed-format check.
- `App` (`main.py`): the seed file as a class `SeedStore` whose methods change its state, and the three endpoints as methods and decision functions.

HMAC-SHA1, base64 decoding, RSA-OAEP decryption and UTF-8 decoding are
library code. Each one is a function-typed parameter, and where the library
raises, the parameter returns `None`. The clock is the parameter `now`, a
Unix time in seconds. The outcome of `os.chmod` is the parameter
`chmodSucceeds`.

## Model

| member | source | states |
|---|---|---|
| Text.Strip | scripts/authsvc/totp_utils.py:23 | the stripped text has no whitespace at either end and is no longer than the input |
| Text.StripSurrounded | scripts/authsvc/totp_utils.py:23 | stripping removes exactly the surrounding whitespace: `strip(w1 + t + w2) == t` for a trimmed `t` |
| Text.StripIdempotent | main.py:34 | stripping twice is stripping once, so the seed file's second strip on read changes nothing |
| Text.LowerOfUpperHex | scripts/authsvc/totp_utils.py:23 | lower-casing forgets whether the hex letters were upper-case |
| Hex.HexBytes | scripts/authsvc/totp_utils.py:29 | an even-length text of hex digits denotes half as many bytes |
| Hex.HexBytesAt | scripts/authsvc/totp_utils.py:29 | byte `i` is the value of digit pair `i`, high nibble first |
| Hex.FromHex | scripts/authsvc/totp_utils.py:28-31 | `bytes.fromhex`: a result never has more than half as many bytes as the text has characters |
| Hex.FromHexWithoutGaps | scripts/authsvc/totp_utils.py:28-31 | without whitespace, `bytes.fromhex` succeeds exactly on an even number of hex digits and yields their bytes |
| Hex.FromHexSkipsGaps | scripts/authsvc/totp_utils.py:29 | whitespace before a digit pair is skipped |
| Base32.Encode | scripts/authsvc/totp_utils.py:34 | the Base32 text is padded to a multiple of 8 characters; without its padding it is alphabet characters carrying exactly the data's bits followed by zero fill bits (section 3.5 of RFC 4648) |
| Base32.Decode | scripts/authsvc/totp_utils.py:82 | a decoded secret comes from text padded to a multiple of 8 and holds at most 5 bits per character |
| Base32.DecodeEncode | scripts/authsvc/totp_utils.py:34 | decoding the encoding gives back the same bytes, for every byte string |
| Base32.EncodeSeedShape | scripts/authsvc/totp_utils.py:18 | 32 bytes encode to 52 alphabet characters and then `====` |
| TotpUtils.SeedBytes | scripts/authsvc/totp_utils.py:23-29 | an accepted seed denotes 32 bytes |
| TotpUtils.HexToBase32 | scripts/authsvc/totp_utils.py:14-35 | the seed is accepted iff, stripped and lower-cased, it is 64 hex digits; a wrong stripped length is `WrongLength`; 64 characters that are not all hex digits are `NonHexCharacters`; the secret is 56 characters ending in `====` and decodes to the seed's 32 bytes; it is exactly the Base32 encoding of those bytes, fill bits zero (the corrected reading; see Findings) |
| TotpUtils.HexToBase32IgnoresCaseAndSpace | scripts/authsvc/totp_utils.py:23 | upper-case hex letters and surrounding whitespace give the same secret as the bare lower-case seed |
| TotpUtils.HexToBase32AsWritten | scripts/authsvc/totp_utils.py:14-35 | `hex_to_base32` exactly as written: a stripped length other than 64 is `WrongLength`; otherwise it succeeds iff `bytes.fromhex` reads the stripped, lower-cased text, and then the secret decodes to exactly the bytes `bytes.fromhex` yields |
| TotpUtils.AsWrittenAgreesOnSeeds | scripts/authsvc/totp_utils.py:23-34 | on every seed of 64 hex digits, the code as written gives the same secret as the corrected reading |
| TotpUtils.AsWrittenAgreesWithoutGaps | scripts/authsvc/totp_utils.py:28-31 | when the seed has no interior whitespace, the code as written and the corrected reading give the same result |
| TotpUtils.AsWrittenAcceptsInteriorSpace | scripts/authsvc/totp_utils.py:24-34 | the code as written accepts a 64-character seed with two interior spaces and produces the secret of 31 bytes |
| TotpUtils.GappedSeedRejected | scripts/authsvc/totp_utils.py:24-31 | the corrected reading rejects that same seed as `NonHexCharacters` |
| TotpUtils.DynamicTruncate | scripts/authsvc/totp_utils.py:45 | dynamic truncation of a 20-byte digest (section 5.3 of RFC 4226) is a 31-bit number |
| TotpUtils.DecimalValueOfDecimalString | scripts/authsvc/totp_utils.py:41 | the zero-padded decimal text of a number below 10^k reads back as that number |
| TotpUtils.FormatCode | scripts/authsvc/totp_utils.py:41 | a code is six ASCII digits whose value is the number mod 10^6 |
| TotpUtils.Otp | scripts/authsvc/totp_utils.py:44-45 | the HOTP value of a counter is six digits denoting the truncated HMAC mod 10^6 |
| TotpUtils.GenerateTotpCode | scripts/authsvc/totp_utils.py:38-46 | a code is produced iff `hex_to_base32` accepts the seed, and then it is the HOTP of the seed's bytes at step `now / 30`; otherwise `hex_to_base32`'s error |
| TotpUtils.SecondsRemaining | scripts/authsvc/totp_utils.py:49-56 | the result is in 1..30, and is 30 exactly at a step boundary; every instant before `now + r` is in the same step, and `now + r` starts the next one |
| TotpUtils.GenerateTotpPayload | scripts/authsvc/totp_utils.py:59-65 | a payload exists iff the seed is accepted; `valid_for` is the seconds remaining in the current step, `30 - now % 30`, and the code stays the generated code at every instant of those seconds |
| TotpUtils.ScanWindowMeaning | scripts/authsvc/totp_utils.py:86-89 | pyotp's scan of counters `t-w` to `t+w` raises on a negative first counter, and otherwise finds a match iff some counter in range matches |
| TotpUtils.VerifyTotpCode | scripts/authsvc/totp_utils.py:68-89 | an empty code raises; a code that is not six digits is refused before the seed is read; the call raises iff the code is empty, or well formed with a bad seed; `True` only for six digits |
| TotpUtils.VerifyMeansInWindow | scripts/authsvc/totp_utils.py:81-89 | for a six-digit code and a good seed, the verdict is exactly: the lowest step is not negative and some step within the window gives the code |
| TotpUtils.NearbyCodeVerifies | scripts/authsvc/totp_utils.py:71 | a code generated at any time whose step lies within the window of the current step is accepted |
| TotpUtils.CurrentCodeVerifies | scripts/authsvc/totp_utils.py:38-89 | the code generated now is accepted now, with any window the clock allows |
| TotpUtils.EarlyEpochRefusesAll | scripts/authsvc/totp_utils.py:86-89 | within the first `w` steps after the epoch, the negative counter raises and every code is refused |
| TotpUtils.NegativeWindowRefusesAll | scripts/authsvc/totp_utils.py:87 | with a negative window no step is scanned and every code is refused |
| SeedDecryption.DecryptSeed | scripts/decrypt_seed.py:5-25 | base64 failure, decryption failure and UTF-8 failure are each characterised exactly and told apart from "Invalid seed format"; a returned seed is 64 lower-case hex digits that are already stripped; a seed is returned iff the decoded plaintext strips to such a seed |
| SeedDecryption.SurroundingWhitespaceAccepted | scripts/decrypt_seed.py:20-25 | whitespace around a valid seed is stripped, and the seed itself is returned |
| SeedDecryption.InvalidFormatExactly | scripts/decrypt_seed.py:20-23 | after decoding, "Invalid seed format" is raised iff the stripped text is not 64 lower-case hex digits, for instance a wrong length or an upper-case letter |
| SeedDecryption.CanonicalSeedIsSeedText | scripts/decrypt_seed.py:22 | every seed this validator accepts is accepted by `hex_to_base32`, and denotes the bytes of its digits |
| SeedDecryption.DecryptedSeedEncodes | scripts/decrypt_seed.py:25 | a decrypted seed always converts to a secret, and the code as written agrees with the corrected reading on it |
| SeedDecryption.ValidatorsDifferOnCase | scripts/decrypt_seed.py:22 | a seed with an upper-case hex letter is refused by `decrypt_seed`, yet `hex_to_base32` gives it the same secret as its lower-case form |
| App.SeedStore.constructor | main.py:11 | a fresh store holds no seed |
| App.SeedStore.Write | main.py:20-28 | the store holds exactly the stripped seed whether or not `chmod` succeeds; only the restriction flag records the `chmod` outcome |
| App.SeedStore.Read | main.py:30-34 | an empty store gives `NotFound`; otherwise the stored seed |
| App.DecryptSeedEndpoint | main.py:36-47 | the answer is `{"status": "ok"}` iff the key loads and `decrypt_seed` succeeds, and then the store holds the decrypted seed and records whether `chmod` succeeded; every failure answers 500 "Decryption failed" and leaves the store unchanged |
| App.GenerateResponse | main.py:49-58 | a missing seed answers "Seed not decrypted yet"; "Internal error" iff the stored seed is refused; otherwise the current code, six digits, with `valid_for` the seconds remaining in the current step (`30 - now % 30`, in 1..30) |
| App.VerifyResponse | main.py:60-74 | an empty code answers 400 "Missing code" whatever the store holds; a missing seed answers "Seed not decrypted yet"; with a seed stored the answer is always a verdict; it is `valid: true` iff the seed is accepted, the code is six digits and it matches within one step |
| App.Generate2fa | main.py:49-58 | the endpoint reads the store and answers as `GenerateResponse` |
| App.Verify2fa | main.py:60-74 | the endpoint answers an empty code without reading the store, and otherwise as `VerifyResponse` |
| App.GeneratedCodePassesEndpoint | main.py:49-74 | the code `/generate-2fa` hands out is accepted by `/verify-2fa` at the same moment, once the clock is past the first step |
| App.DecryptedSeedServes | main.py:41-53 | a seed that `decrypt_seed` returned always yields a code from `/generate-2fa`, and that code passes `/verify-2fa` once the clock is past the first step |
| App.FreshServiceScenario | main.py:36-74 | on a fresh service, generating before decryption answers "Seed not decrypted yet"; after a successful decryption the code is accepted; after a failed one both endpoints still report the missing seed |
| App.OverwriteScenario | main.py:20-34 | reading an empty store gives `NotFound`, and after two writes the store gives the last seed, stripped |

## Left out

- HMAC-SHA1 and pyotp's 8-byte big-endian counter encoding are inside the parameter `mac`; SHA-1 is not modelled.
- Base64 decoding, RSA-OAEP decryption and UTF-8 decoding are parameters returning `None` where the library raises. Key loading (`load_private_key`, `utils/crypto_helpers.py`) is not part of this model; a key that fails to load is `None`.
- The file system is a field: directory creation, the file path (`SEED_DATA_PATH`), I/O errors, text encoding and concurrent requests are not modelled. The file's permission bits are reduced to whether the last `chmod` succeeded. Text-mode newline translation on read is not modelled either: a seed containing `'\r'` would read back differently, but a stored seed never contains one.
- FastAPI, request parsing by pydantic and the JSON bodies are not modelled. A response is a value, and `main.py` importing `utils.*` while the files live under `scripts/` is import-path glue.
- The `isinstance` checks of `hex_to_base32` and `verify_totp_code` are not modelled: every argument is a string here.
- TotpUtils.VerifyTotpCode: `str.isdigit` is modelled on ASCII only. Python also counts other Unicode digits, which pass the format check and reach pyotp's NFKC-normalising comparison.
- Text.Strip: `str.strip` and `str.lower` are modelled on ASCII whitespace and letters only. Unicode whitespace and case mapping are not modelled.
- TotpUtils.HexToBase32: this is the corrected reading, which rejects every character that is not a hex digit. The source, through `bytes.fromhex`, accepts a 64-character seed with whitespace between digit pairs and encodes fewer than 32 bytes (see Findings and `TotpUtils.HexToBase32AsWritten`). The two readings agree on every seed without such whitespace (`TotpUtils.AsWrittenAgreesWithoutGaps`), which includes every seed `decrypt_seed` returns (`SeedDecryption.DecryptedSeedEncodes`).
- TotpUtils.GenerateTotpCode: built on the corrected `HexToBase32`. On a seed with whitespace between digit pairs the source generates a code from the shorter key; the model gives `NonHexCharacters`.
- TotpUtils.GenerateTotpPayload: built on the corrected `HexToBase32`, so on a seed with whitespace between digit pairs it gives `NonHexCharacters` where the source returns a payload for the shorter key.
- TotpUtils.VerifyTotpCode: built on the corrected `HexToBase32`. On a seed with whitespace between digit pairs and a six-digit code the source verifies against the shorter key; the model raises `BadSeed(NonHexCharacters)`.
- App.GenerateResponse: built on the corrected `HexToBase32`. For a stored seed with whitespace between digit pairs the source answers with a code; the model answers "Internal error". Such a seed never comes from `/decrypt-seed`, which stores only 64 lower-case hex digits.
- App.VerifyResponse: built on the corrected `HexToBase32`. For a stored seed with whitespace between digit pairs the source checks the code against the shorter key; the model answers `valid: false`. Such a seed never comes from `/decrypt-seed`.
- Base32.Decode: pyotp's `byte_secret` completes missing `=` padding and decodes with `casefold=True`; the model does neither, so it rejects unpadded or lower-case secrets. The secrets here always come from `b32encode`, which are upper-case and padded.
- TotpUtils.GenerateTotpPayload: the code reads the clock once for the code and once for `valid_for`. The model uses one `now`, so a step boundary between the two reads is not captured.
- TotpUtils.TimeStep: `now` is a natural number (a time after the epoch); pyotp's truncation of `now / 30` equals the floor there.
- A code from 31 seconds earlier is always from a different time step, so with window 0 it is refused only when the two steps' six-digit codes differ. Two different digests reduce to the same value mod 10^6 for about one pair of steps in a million, so this refusal does not hold for every seed and time in the service itself and is not stated. What is stated is the exact window characterisation (`TotpUtils.VerifyMeansInWindow`) and that codes within the window verify.
- A negative window is not clamped to 0. pyotp scans an empty range for it, so every code is refused (`TotpUtils.NegativeWindowRefusesAll`); the endpoints always pass window 1.
- `TOTP_ALGORITHM` is informational only and is not modelled.

## Findings

| source | as written | input that shows it | evidently intended | confidence | as-written member | corrected member |
|---|---|---|---|---|---|---|
| scripts/authsvc/totp_utils.py:28-31 | the hex check is left to `bytes.fromhex`, which skips whitespace between digit pairs, so a 64-character seed with interior whitespace passes the length check and the hex check | `"00"`, two spaces, then sixty `'0'`: accepted and encoded as 31 bytes | only 64 hex digits, that is 32 bytes, are accepted (the docstring and the error message) | not executed | TotpUtils.AsWrittenAcceptsInteriorSpace | TotpUtils.GappedSeedRejected |

=== FILE: App.dfy ===
/**
 * The HTTP service of `main.py` without its web framework: the seed file as a
 * store holding at most one seed, and the three endpoints as decision rules
 * from the outcomes of the seed and TOTP operations to a response.
 */
module App {
  import opened Wrappers
  import opened Text
  import TotpUtils
  import SeedDecryption

  /** Why `read_seed_file` raised: `FileNotFoundError("Seed file missing")`. */
  datatype StoreError = NotFound

  /** The seed file at DATA_PATH: absent, or holding one stripped seed. */
  class SeedStore {
    var stored: Option<string>
    /** Whether the last write managed to restrict the file to mode 0600. */
    var restricted: bool

    ghost predicate Valid()
      reads this
    {
      stored.Some? ==> Strip(stored.value) == stored.value
    }

    constructor ()
      ensures Valid() && stored == None && !restricted
    {
      stored := None;
      restricted := false;
    }

    /**
     * `write_seed_file`: the file's whole content becomes the stripped seed.
     * The permission change is attempted afterwards and its failure is
     * swallowed, so the write stands either way.
     */
    method Write(hexSeed: string, chmodSucceeds: bool)
      modifies this
      ensures Valid()
      ensures stored == Some(Strip(hexSeed))
      ensures restricted == chmodSucceeds
    {
      StripIdempotent(hexSeed);
      stored := Some(Strip(hexSeed));
      restricted := chmodSucceeds;
    }

    /** `read_seed_file`: the content, stripped again; `NotFound` when nothing was written. */
    method Read() returns (r: Result<string, StoreError>)
      requires Valid()
      ensures stored.None? ==> r == Err(NotFound)
      ensures stored.Some? ==> r == Ok(stored.value)
    {
      match stored
      case None =>
        r := Err(NotFound);
      case Some(content) =>
        r := Ok(Strip(content));
    }
  }

  /** What an endpoint answers, with the JSON fields reduced to values. */
  datatype Response =
    | Stored                                      // {"status": "ok"}
    | CodePayload(code: string, validFor: nat)    // {"code": ..., "valid_for": ...}
    | Verdict(valid: bool)                        // {"valid": ...}
    | Failure(status: nat, message: string)       // {"error": message} with this status

  const DecryptionFailedMessage: string := "Decryption failed"
  const NotDecryptedMessage: string := "Seed not decrypted yet"
  const InternalErrorMessage: string := "Internal error"
  const MissingCodeMessage: string := "Missing code"

  /** The window the verify endpoint passes to `verify_totp_code`. */
  const EndpointWindow: int := 1

  /**
   * `/decrypt-seed`: load the key, decrypt, and store the seed. Any failure,
   * including a key that cannot be loaded (`key` is `None`), gives the one
   * answer "Decryption failed" and leaves the store as it was.
   */
  method DecryptSeedEndpoint(store: SeedStore, key: Option<SeedDecryption.Decryptor>,
                             codecs: SeedDecryption.Codecs, encryptedSeed: string, chmodSucceeds: bool)
    returns (resp: Response)
    requires store.Valid()
    modifies store
    ensures store.Valid()
    ensures resp == Stored || resp == Failure(500, DecryptionFailedMessage)
    ensures resp == Stored <==> key.Some? && SeedDecryption.DecryptSeed(codecs, key.value, encryptedSeed).Ok?
    ensures resp == Stored ==>
      store.stored == Some(SeedDecryption.DecryptSeed(codecs, key.value, encryptedSeed).value)
    ensures resp == Stored ==> store.restricted == chmodSucceeds
    ensures resp != Stored ==> store.stored == old(store.stored) && store.restricted == old(store.restricted)
  {
    if key.None? {
      resp := Failure(500, DecryptionFailedMessage);
      return;
    }
    match SeedDecryption.DecryptSeed(codecs, key.value, encryptedSeed)
    case Err(_) =>
      resp := Failure(500, DecryptionFailedMessage);
    case Ok(seed) =>
      store.Write(seed, chmodSucceeds);
      resp := Stored;
  }

  /**
   * `/generate-2fa` after reading the store: a missing seed gives "Seed not
   * decrypted yet", a seed `hex_to_base32` refuses gives "Internal error",
   * and otherwise the current code and its remaining seconds.
   */
  function GenerateResponse(read: Result<string, StoreError>, mac: TotpUtils.Hmac, now: nat): (resp: Response)
    ensures read.Err? ==> resp == Failure(500, NotDecryptedMessage)
    ensures resp == Failure(500, InternalErrorMessage) <==> read.Ok? && !TotpUtils.IsSeedText(read.value)
    ensures resp.CodePayload? <==> read.Ok? && TotpUtils.IsSeedText(read.value)
    ensures resp.CodePayload? ==>
      && resp.code == TotpUtils.Otp(mac, TotpUtils.SeedBytes(read.value), TotpUtils.TimeStep(now))
      && |resp.code| == TotpUtils.CodeDigits && AllDigits(resp.code)
      && resp.validFor == TotpUtils.SecondsRemaining(now)
      && 1 <= resp.validFor <= TotpUtils.Period
  {
    match read
    case Err(NotFound) => Failure(500, NotDecryptedMessage)
    case Ok(hexSeed) =>
      match TotpUtils.GenerateTotpPayload(mac, hexSeed, now)
      case Ok(payload) => CodePayload(payload.code, payload.validFor)
      case Err(_) => Failure(500, InternalErrorMessage)
  }

  /**
   * `/verify-2fa` after the code check and the store read: an empty code is
   * "Missing code" (400) whatever the store holds; a missing seed is "Seed
   * not decrypted yet"; any other failure is a negative verdict.
   */
  function VerifyResponse(code: string, read: Result<string, StoreError>, mac: TotpUtils.Hmac, now: nat): (resp: Response)
    ensures code == [] ==> resp == Failure(400, MissingCodeMessage)
    ensures code != [] && read.Err? ==> resp == Failure(500, NotDecryptedMessage)
    ensures code != [] && read.Ok? ==> resp.Verdict?
    ensures resp == Verdict(true) <==>
      && read.Ok? && TotpUtils.IsSeedText(read.value)
      && |code| == TotpUtils.CodeDigits && AllDigits(code)
      && TotpUtils.InWindow(mac, TotpUtils.SeedBytes(read.value), code, TotpUtils.TimeStep(now), EndpointWindow)
  {
    if code == [] then Failure(400, MissingCodeMessage)
    else
      match read
      case Err(NotFound) => Failure(500, NotDecryptedMessage)
      case Ok(hexSeed) =>
        if |code| == TotpUtils.CodeDigits && AllDigits(code) && TotpUtils.IsSeedText(hexSeed) then
          TotpUtils.VerifyMeansInWindow(mac, hexSeed, code, EndpointWindow, now);
          VerdictOf(TotpUtils.VerifyTotpCode(mac, hexSeed, code, EndpointWindow, now))
        else
          VerdictOf(TotpUtils.VerifyTotpCode(mac, hexSeed, code, EndpointWindow, now))
  }

  /** `{"valid": ...}` from `verify_totp_code`; an exception is `valid: false`. */
  function VerdictOf(r: Result<bool, TotpUtils.VerifyError>): Response {
    match r
    case Ok(valid) => Verdict(valid)
    case Err(_) => Verdict(false)
  }

  /** `/generate-2fa`: read the store, then answer. */
  method Generate2fa(store: SeedStore, mac: TotpUtils.Hmac, now: nat) returns (resp: Response)
    requires store.Valid()
    ensures store.stored.None? ==> resp == Failure(500, NotDecryptedMessage)
    ensures store.stored.Some? ==> resp == GenerateResponse(Ok(store.stored.value), mac, now)
  {
    var read := store.Read();
    resp := GenerateResponse(read, mac, now);
  }

  /** `/verify-2fa`: an empty code is answered before the store is read. */
  method Verify2fa(store: SeedStore, code: string, mac: TotpUtils.Hmac, now: nat) returns (resp: Response)
    requires store.Valid()
    ensures code == [] ==> resp == Failure(400, MissingCodeMessage)
    ensures code != [] && store.stored.None? ==> resp == Failure(500, NotDecryptedMessage)
    ensures code != [] && store.stored.Some? ==> resp == VerifyResponse(code, Ok(store.stored.value), mac, now)
  {
    if code == [] {
      resp := Failure(400, MissingCodeMessage);
      return;
    }
    var read := store.Read();
    resp := VerifyResponse(code, read, mac, now);
  }

  /**
   * A fresh service: generating before any decryption fails with "Seed not
   * decrypted yet"; after a successful decryption the generated code is
   * accepted by the verify endpoint (once the clock is past the first step),
   * and after a failed one both endpoints still report the missing seed.
   */
  method FreshServiceScenario(key: Option<SeedDecryption.Decryptor>, codecs: SeedDecryption.Codecs,
                              encryptedSeed: string, mac: TotpUtils.Hmac, now: nat)
    returns (before: Response, decrypted: Response, generated: Response, verified: Response)
    ensures before == Failure(500, NotDecryptedMessage)
    ensures decrypted == Stored ==> generated.CodePayload?
    ensures decrypted == Stored && TotpUtils.TimeStep(now) >= 1 ==> verified == Verdict(true)
    ensures decrypted != Stored ==>
      generated == Failure(500, NotDecryptedMessage) && verified == Failure(500, NotDecryptedMessage)
  {
    var store := new SeedStore();
    before := Generate2fa(store, mac, now);
    decrypted := DecryptSeedEndpoint(store, key, codecs, encryptedSeed, true);
    if decrypted == Stored {
      DecryptedSeedServes(store.stored.value, mac, now);
    }
    generated := Generate2fa(store, mac, now);
    var code := if generated.CodePayload? then generated.code else "000000";
    verified := Verify2fa(store, code, mac, now);
  }

  /** A seed `decrypt_seed` returns always yields a code, which verifies once the clock allows. */
  lemma DecryptedSeedServes(seed: string, mac: TotpUtils.Hmac, now: nat)
    requires SeedDecryption.IsCanonicalSeed(seed)
    ensures GenerateResponse(Ok(seed), mac, now).CodePayload?
    ensures TotpUtils.TimeStep(now) >= 1 ==>
      VerifyResponse(GenerateResponse(Ok(seed), mac, now).code, Ok(seed), mac, now) == Verdict(true)
  {
    SeedDecryption.CanonicalSeedIsSeedText(seed);
    if TotpUtils.TimeStep(now) >= 1 {
      GeneratedCodePassesEndpoint(seed, mac, now);
    }
  }

  /**
   * Whatever `/generate-2fa` hands out for a stored seed, `/verify-2fa`
   * accepts at the same moment, once the clock is past the first step
   * (before that the window reaches a negative counter).
   */
  lemma GeneratedCodePassesEndpoint(seed: string, mac: TotpUtils.Hmac, now: nat)
    requires TotpUtils.IsSeedText(seed)
    requires TotpUtils.TimeStep(now) >= 1
    ensures GenerateResponse(Ok(seed), mac, now).CodePayload?
    ensures VerifyResponse(GenerateResponse(Ok(seed), mac, now).code, Ok(seed), mac, now) == Verdict(true)
  {
    TotpUtils.CurrentCodeVerifies(mac, seed, EndpointWindow, now);
  }

  /** The store keeps only the last write: no merging, no history. */
  method OverwriteScenario(s1: string, s2: string) returns (first: Result<string, StoreError>, last: Result<string, StoreError>)
    ensures first == Err(NotFound)
    ensures last == Ok(Strip(s2))
  {
    var store := new SeedStore();
    first := store.Read();
    store.Write(s1, true);
    store.Write(s2, false);
    last := store.Read();
  }
}

=== FILE: Base32.dfy ===
/**
 * The Base32 encoding of section 6 of RFC 4648: the input bits are cut into
 * 5-bit groups (the last one filled with zero bits), each group becomes one
 * character of "ABCDEFGHIJKLMNOPQRSTUVWXYZ234567", and '=' pads the output to
 * a multiple of eight characters.
 */
module Base32 {
  import opened Wrappers
  import opened Bytes

  /** A character of the Base32 alphabet. */
  predicate IsDigitChar(c: char) {
    'A' <= c <= 'Z' || '2' <= c <= '7'
  }

  predicate AllDigitChars(s: string) {
    forall i :: 0 <= i < |s| ==> IsDigitChar(s[i])
  }

  /** The alphabet character for a 5-bit value. */
  function Digit(v: nat): (c: char)
    requires v < 32
    ensures IsDigitChar(c)
  {
    if v < 26 then ('A' as int + v) as char else ('2' as int + v - 26) as char
  }

  /** The 5-bit value of an alphabet character. */
  function DigitValue(c: char): (v: nat)
    requires IsDigitChar(c)
    ensures v < 32 && Digit(v) == c
  {
    if 'A' <= c <= 'Z' then c as int - 'A' as int else c as int - '2' as int + 26
  }

  lemma DigitValueOfDigit(v: nat)
    requires v < 32
    ensures DigitValue(Digit(v)) == v
  {
  }

  /** Each 5-bit group as one alphabet character. */
  function BitsToDigits(bits: seq<bool>): (r: string)
    requires |bits| % 5 == 0
    ensures 5 * |r| == |bits|
    ensures AllDigitChars(r)
  {
    if bits == [] then []
    else
      assert Pow2(5) == 32;
      [Digit(ValueOf(bits[..5]))] + BitsToDigits(bits[5..])
  }

  /** Each alphabet character as its 5-bit group. */
  function DigitsToBits(s: string): (r: seq<bool>)
    requires AllDigitChars(s)
    ensures |r| == 5 * |s|
  {
    if s == [] then [] else BitsOf(DigitValue(s[0]), 5) + DigitsToBits(s[1..])
  }

  lemma {:induction false} DigitsToBitsOfBitsToDigits(bits: seq<bool>)
    requires |bits| % 5 == 0
    ensures DigitsToBits(BitsToDigits(bits)) == bits
  {
    if bits != [] {
      var s := BitsToDigits(bits);
      assert Pow2(5) == 32;
      assert s[0] == Digit(ValueOf(bits[..5]));
      assert s[1..] == BitsToDigits(bits[5..]);
      DigitValueOfDigit(ValueOf(bits[..5]));
      BitsOfValueOf(bits[..5]);
      DigitsToBitsOfBitsToDigits(bits[5..]);
      assert bits == bits[..5] + bits[5..];
    }
  }

  function Repeat(c: char, n: nat): (r: string)
    ensures |r| == n && forall i :: 0 <= i < n ==> r[i] == c
  {
    seq(n, _ => c)
  }

  /** Number of zero bits that complete the last 5-bit group. */
  function FillBits(n: nat): nat {
    (5 - n % 5) % 5
  }

  lemma FillBitsCompletes(n: nat)
    ensures FillBits(n) < 5 && (n + FillBits(n)) % 5 == 0
  {
    var q, m := n / 5, n % 5;
    assert n == 5 * q + m;
    assert m != 0 ==> FillBits(n) == 5 - m && n + FillBits(n) == 5 * (q + 1);
  }

  /** Number of '=' characters that complete the last 8-character block. */
  function PadCount(n: nat): nat {
    (8 - n % 8) % 8
  }

  /**
   * The characters of the encoding before its padding: they carry the data's
   * bits and then zero bits up to a whole character (section 3.5 of RFC 4648).
   */
  function EncodeBody(data: seq<byte>): (r: string)
    ensures AllDigitChars(r)
    ensures DigitsToBits(r) == BytesToBits(data) + seq(FillBits(8 * |data|), _ => false)
  {
    var bits := BytesToBits(data);
    FillBitsCompletes(|bits|);
    var filled := bits + seq(FillBits(|bits|), _ => false);
    DigitsToBitsOfBitsToDigits(filled);
    BitsToDigits(filled)
  }

  lemma PadCountCompletes(n: nat)
    ensures PadCount(n) < 8 && (n + PadCount(n)) % 8 == 0
  {
    var q, m := n / 8, n % 8;
    assert n == 8 * q + m;
    assert m == 0 ==> PadCount(n) == 0;
    assert m != 0 ==> PadCount(n) == 8 - m && n + PadCount(n) == 8 * (q + 1);
  }

  /**
   * `base64.b32encode`: RFC 4648 Base32 with '=' padding. Without its padding
   * the text carries exactly the data's bits followed by zero fill bits.
   */
  function Encode(data: seq<byte>): (r: string)
    ensures |r| % 8 == 0
    ensures AllDigitChars(DropPadding(r))
    ensures DigitsToBits(DropPadding(r)) == BytesToBits(data) + seq(FillBits(8 * |data|), _ => false)
  {
    var body := EncodeBody(data);
    PadCountCompletes(|body|);
    DropPaddingOfPadded(body, PadCount(|body|));
    body + Repeat('=', PadCount(|body|))
  }

  /** `s` without its trailing '=' characters. */
  function DropPadding(s: string): (r: string)
    ensures |r| <= |s| && r == s[..|r|]
    ensures forall i :: |r| <= i < |s| ==> s[i] == '='
    ensures r == [] || r[|r| - 1] != '='
  {
    if s != [] && s[|s| - 1] == '=' then DropPadding(s[..|s| - 1]) else s
  }

  /**
   * `base64.b32decode`: the length is a multiple of 8, the padding count is
   * one the encoder can produce, every other character is in the alphabet;
   * the bits of a final partial byte are discarded.
   */
  function Decode(s: string): (r: Option<seq<byte>>)
    ensures r.Some? ==> |s| % 8 == 0 && 8 * |r.value| <= 5 * |s|
  {
    var body := DropPadding(s);
    var pad := |s| - |body|;
    if |s| % 8 != 0 || pad !in {0, 1, 3, 4, 6} || !AllDigitChars(body) then None
    else
      var bits := DigitsToBits(body);
      Some(BitsToBytes(bits[..WholeBytes(|bits|)]))
  }

  lemma {:induction false} DropPaddingOfPadded(body: string, n: nat)
    requires body == [] || body[|body| - 1] != '='
    ensures DropPadding(body + Repeat('=', n)) == body
  {
    var s := body + Repeat('=', n);
    if n > 0 {
      assert s[|s| - 1] == '=';
      assert s[..|s| - 1] == body + Repeat('=', n - 1);
      DropPaddingOfPadded(body, n - 1);
    } else {
      assert s == body;
    }
  }

  /** The length of the unpadded encoding of `n` bytes. */
  lemma EncodeBodyLength(data: seq<byte>)
    ensures var n := |data|;
      |EncodeBody(data)| == 8 * (n / 5) + [0, 2, 4, 5, 7][n % 5]
  {
    EncodeBodyBlocks(data, |data| / 5, |data| % 5);
  }

  /** `5 * q + r` bytes fill `8 * q` whole characters and a partial block. */
  lemma EncodeBodyBlocks(data: seq<byte>, q: nat, r: nat)
    requires |data| == 5 * q + r && r < 5
    ensures |EncodeBody(data)| == 8 * q + [0, 2, 4, 5, 7][r]
  {
    var len := |EncodeBody(data)|;
    var fill := FillBits(40 * q + 8 * r);
    assert 5 * len == 40 * q + 8 * r + fill;
    FillBitsOfBlocks(q, r);
  }

  lemma FillBitsOfBlocks(q: nat, r: nat)
    requires r < 5
    ensures FillBits(40 * q + 8 * r) == [0, 4, 3, 2, 1][(8 * r) % 5]
  {
    assert 40 * q + 8 * r == 5 * (8 * q) + 8 * r;
  }

  lemma PadCountAllowed(data: seq<byte>)
    ensures PadCount(|EncodeBody(data)|) in {0, 1, 3, 4, 6}
  {
    EncodeBodyLength(data);
    var n := |data|;
    PadCountOfBlocks(n / 5, [0, 2, 4, 5, 7][n % 5]);
  }

  lemma PadCountOfBlocks(q: nat, k: nat)
    requires k < 8
    ensures PadCount(8 * q + k) == (8 - k) % 8
  {
    assert (8 * q + k) % 8 == k;
  }

  /** The bits an encoding's digits carry: the data's bits, then the zero fill. */
  lemma EncodeBodyBits(data: seq<byte>)
    ensures var bits := BytesToBits(data);
      && AllDigitChars(EncodeBody(data))
      && |DigitsToBits(EncodeBody(data))| == |bits| + FillBits(|bits|)
      && WholeBytes(|DigitsToBits(EncodeBody(data))|) == |bits|
      && DigitsToBits(EncodeBody(data))[..|bits|] == bits
      && DigitsToBits(EncodeBody(data))[|bits|..] == seq(FillBits(|bits|), _ => false)
  {
    var bits := BytesToBits(data);
    var filled := bits + seq(FillBits(|bits|), _ => false);
    FillBitsCompletes(|bits|);
    DigitsToBitsOfBitsToDigits(filled);
    WholeBytesOfBytes(|data|, FillBits(|bits|));
    assert filled[..|bits|] == bits;
    assert filled[|bits|..] == seq(FillBits(|bits|), _ => false);
  }

  /** Decoding the encoding of any byte string gives that byte string back. */
  lemma DecodeEncode(data: seq<byte>)
    ensures Decode(Encode(data)) == Some(data)
  {
    var bits := BytesToBits(data);
    var body := EncodeBody(data);
    var pad := PadCount(|body|);
    assert Encode(data) == body + Repeat('=', pad);
    PadCountAllowed(data);
    DropPaddingOfPadded(body, pad);
    EncodeBodyBits(data);
    assert |bits| % 8 == 0;
    BitsToBytesOfBytesToBits(data);
  }

  /** The encoding of a 32-byte seed: 52 alphabet characters then "====". */
  lemma EncodeSeedShape(data: seq<byte>)
    requires |data| == 32
    ensures |Encode(data)| == 56
    ensures AllDigitChars(Encode(data)[..52])
    ensures Encode(data)[52..] == "===="
  {
    EncodeBodyLength(data);
    var body := EncodeBody(data);
    assert |body| == 52;
    assert Encode(data)[..52] == body;
  }
}

=== FILE: Bytes.dfy ===
/** Bytes and their big-endian bit strings. */
module Bytes {

  type byte = b: int | 0 <= b < 256

  function Pow2(k: nat): (p: nat)
    ensures p >= 1
  {
    if k == 0 then 1 else 2 * Pow2(k - 1)
  }

  /** The `k` low bits of `n`, most significant first. */
  function BitsOf(n: nat, k: nat): (r: seq<bool>)
    ensures |r| == k
  {
    if k == 0 then [] else BitsOf(n / 2, k - 1) + [n % 2 == 1]
  }

  /** The number a big-endian bit string denotes. */
  function ValueOf(bits: seq<bool>): (v: nat)
    ensures v < Pow2(|bits|)
  {
    if bits == [] then 0
    else 2 * ValueOf(bits[..|bits| - 1]) + (if bits[|bits| - 1] then 1 else 0)
  }

  lemma {:induction false} ValueOfBitsOf(n: nat, k: nat)
    requires n < Pow2(k)
    ensures ValueOf(BitsOf(n, k)) == n
  {
    if k > 0 {
      var r := BitsOf(n, k);
      assert r[..|r| - 1] == BitsOf(n / 2, k - 1);
      ValueOfBitsOf(n / 2, k - 1);
    }
  }

  lemma {:induction false} BitsOfValueOf(bits: seq<bool>)
    ensures BitsOf(ValueOf(bits), |bits|) == bits
  {
    if bits != [] {
      var init := bits[..|bits| - 1];
      BitsOfValueOf(init);
      assert bits == init + [bits[|bits| - 1]];
    }
  }

  /** Each byte as eight bits, most significant first. */
  function BytesToBits(data: seq<byte>): (r: seq<bool>)
    ensures |r| == 8 * |data|
  {
    if data == [] then [] else BitsOf(data[0], 8) + BytesToBits(data[1..])
  }

  /** Groups of eight bits as bytes. */
  function BitsToBytes(bits: seq<bool>): (r: seq<byte>)
    requires |bits| % 8 == 0
    ensures 8 * |r| == |bits|
  {
    if bits == [] then []
    else
      assert Pow2(8) == 256;
      [ValueOf(bits[..8])] + BitsToBytes(bits[8..])
  }

  /** The number of bits in the whole bytes of `n` bits. */
  function WholeBytes(n: nat): (m: nat)
    ensures m <= n < m + 8 && m % 8 == 0
  {
    if n < 8 then 0 else WholeBytes(n - 8) + 8
  }

  lemma {:induction false} WholeBytesOfBytes(q: nat, k: nat)
    requires k < 8
    ensures WholeBytes(8 * q + k) == 8 * q
  {
    if q > 0 {
      WholeBytesOfBytes(q - 1, k);
    }
  }

  lemma {:induction false} BitsToBytesOfBytesToBits(data: seq<byte>)
    ensures BitsToBytes(BytesToBits(data)) == data
  {
    if data != [] {
      var bits := BytesToBits(data);
      assert bits[..8] == BitsOf(data[0], 8);
      assert bits[8..] == BytesToBits(data[1..]);
      assert Pow2(8) == 256;
      ValueOfBitsOf(data[0], 8);
      BitsToBytesOfBytesToBits(data[1..]);
    }
  }
}

=== FILE: Hex.dfy ===
/**
 * Hexadecimal text to bytes: the strict two-digits-per-byte reading, and the
 * reading of Python's `bytes.fromhex`, which also skips whitespace in front of
 * every digit pair.
 */
module Hex {
  import opened Wrappers
  import opened Bytes
  import opened Text

  predicate AllHexDigits(s: string) {
    forall i :: 0 <= i < |s| ==> IsHexDigit(s[i])
  }

  /** Two digits per byte, the first one the high nibble. */
  function HexBytes(s: string): (r: seq<byte>)
    requires |s| % 2 == 0 && AllHexDigits(s)
    ensures |r| == |s| / 2
  {
    if s == [] then [] else [16 * HexValue(s[0]) + HexValue(s[1])] + HexBytes(s[2..])
  }

  /** Byte `i` is made of digits `2i` and `2i + 1`. */
  lemma {:induction false} HexBytesAt(s: string, i: nat)
    requires |s| % 2 == 0 && AllHexDigits(s)
    requires i < |s| / 2
    ensures HexBytes(s)[i] == 16 * HexValue(s[2 * i]) + HexValue(s[2 * i + 1])
  {
    if i > 0 {
      HexBytesAt(s[2..], i - 1);
    }
  }

  /** The whitespace `bytes.fromhex` skips between digit pairs (C `isspace`). */
  predicate IsHexGap(c: char) {
    '\t' <= c <= '\r' || c == ' '
  }

  predicate NoHexGaps(s: string) {
    forall i :: 0 <= i < |s| ==> !IsHexGap(s[i])
  }

  /**
   * `bytes.fromhex`: before each pair of digits any run of whitespace is
   * skipped; a lone digit, or a non-digit where a digit is expected, fails.
   */
  function FromHex(s: string): (r: Option<seq<byte>>)
    ensures r.Some? ==> 2 * |r.value| <= |s|
  {
    if s == [] then Some([])
    else if IsHexGap(s[0]) then FromHex(s[1..])
    else if |s| < 2 || !IsHexDigit(s[0]) || !IsHexDigit(s[1]) then None
    else
      match FromHex(s[2..])
      case None => None
      case Some(rest) => Some([16 * HexValue(s[0]) + HexValue(s[1])] + rest)
  }

  /** Without whitespace, `bytes.fromhex` is the strict reading. */
  lemma {:induction false} FromHexWithoutGaps(s: string)
    requires NoHexGaps(s)
    ensures FromHex(s) == if |s| % 2 == 0 && AllHexDigits(s) then Some(HexBytes(s)) else None
  {
    if s != [] {
      assert !IsHexGap(s[0]);
      if |s| >= 2 && IsHexDigit(s[0]) && IsHexDigit(s[1]) {
        FromHexWithoutGaps(s[2..]);
        assert s == s[..2] + s[2..];
        assert AllHexDigits(s) <==> AllHexDigits(s[2..]);
      } else if |s| >= 2 {
        assert !AllHexDigits(s);
      }
    }
  }

  /** Whitespace in front of the input does not change what `bytes.fromhex` yields. */
  lemma {:induction false} FromHexSkipsGaps(w: string, s: string)
    requires forall i :: 0 <= i < |w| ==> IsHexGap(w[i])
    ensures FromHex(w + s) == FromHex(s)
  {
    if w != [] {
      assert (w + s)[1..] == w[1..] + s;
      FromHexSkipsGaps(w[1..], s);
    } else {
      assert w + s == s;
    }
  }

  /** A whole number of digit pairs in front is read strictly. */
  lemma {:induction false} FromHexPrefix(a: string, rest: string)
    requires |a| % 2 == 0 && AllHexDigits(a)
    ensures FromHex(a + rest) == match FromHex(rest)
      case None => None
      case Some(r) => Some(HexBytes(a) + r)
  {
    if a == [] {
      assert a + rest == rest;
      assert HexBytes(a) == [];
      match FromHex(rest)
      case None =>
      case Some(r) => assert HexBytes(a) + r == r;
    } else {
      var s := a + rest;
      assert IsHexDigit(a[0]) && IsHexDigit(a[1]);
      assert s[0] == a[0] && s[1] == a[1] && !IsHexGap(a[0]);
      assert s[2..] == a[2..] + rest;
      var x := 16 * HexValue(a[0]) + HexValue(a[1]);
      assert FromHex(s) == match FromHex(a[2..] + rest)
        case None => None
        case Some(t) => Some([x] + t);
      assert AllHexDigits(a[2..]) by {
        forall i | 0 <= i < |a[2..]| ensures IsHexDigit(a[2..][i]) {
          assert a[2..][i] == a[i + 2];
        }
      }
      FromHexPrefix(a[2..], rest);
      assert HexBytes(a) == [x] + HexBytes(a[2..]);
      match FromHex(rest)
      case None =>
      case Some(r) =>
        assert [x] + (HexBytes(a[2..]) + r) == ([x] + HexBytes(a[2..])) + r;
    }
  }

  lemma {:induction false} HexBytesAppend(a: string, b: string)
    requires |a| % 2 == 0 && AllHexDigits(a)
    requires |b| % 2 == 0 && AllHexDigits(b)
    ensures HexBytes(a + b) == HexBytes(a) + HexBytes(b)
  {
    if a == [] {
      assert a + b == b;
    } else {
      assert (a + b)[2..] == a[2..] + b;
      HexBytesAppend(a[2..], b);
    }
  }
}

=== FILE: SeedDecryption.dfy ===
/**
 * `decrypt_seed`: base64-decode the submitted ciphertext, decrypt it with the
 * service's RSA private key (OAEP, SHA-256 for hash and MGF1, no label),
 * decode the plaintext as UTF-8, strip it and accept only 64 lower-case hex
 * digits. Base64, RSA-OAEP and UTF-8 are library calls and are parameters
 * here, each `None` where the library raises.
 */
module SeedDecryption {
  import opened Wrappers
  import opened Bytes
  import opened Text
  import opened Hex
  import TotpUtils

  datatype DecryptError =
    | MalformedInput      // `base64.b64decode` raised; it runs before the `try`
    | DecryptionFailed    // "Decryption failed": whatever the decryption raised
    | NotUtf8             // the plaintext is not UTF-8; raised after the `try`
    | InvalidSeedFormat   // "Invalid seed format"

  /** RSA-OAEP decryption with the loaded private key. */
  type Decryptor = seq<byte> -> Option<seq<byte>>

  /** The library decoders `decrypt_seed` relies on. */
  datatype Codecs = Codecs(
    base64Decode: string -> Option<seq<byte>>,
    utf8Decode: seq<byte> -> Option<string>)

  /** The only seed format `decrypt_seed` returns: 64 characters of "0123456789abcdef". */
  predicate IsCanonicalSeed(s: string) {
    |s| == 64 && forall i :: 0 <= i < |s| ==> IsLowerHexDigit(s[i])
  }

  /** The decrypted text, when the three library calls succeed. */
  predicate DecryptsTo(codecs: Codecs, decrypt: Decryptor, encryptedSeedB64: string, text: string) {
    && codecs.base64Decode(encryptedSeedB64).Some?
    && decrypt(codecs.base64Decode(encryptedSeedB64).value).Some?
    && codecs.utf8Decode(decrypt(codecs.base64Decode(encryptedSeedB64).value).value) == Some(text)
  }

  function DecryptSeed(codecs: Codecs, decrypt: Decryptor, encryptedSeedB64: string): (r: Result<string, DecryptError>)
    ensures r == Err(MalformedInput) <==> codecs.base64Decode(encryptedSeedB64).None?
    ensures r == Err(DecryptionFailed) <==>
      codecs.base64Decode(encryptedSeedB64).Some? && decrypt(codecs.base64Decode(encryptedSeedB64).value).None?
    ensures r == Err(NotUtf8) <==>
      && codecs.base64Decode(encryptedSeedB64).Some?
      && decrypt(codecs.base64Decode(encryptedSeedB64).value).Some?
      && codecs.utf8Decode(decrypt(codecs.base64Decode(encryptedSeedB64).value).value).None?
    ensures r.Ok? ==> IsCanonicalSeed(r.value) && Strip(r.value) == r.value
    ensures r.Ok? <==> exists text :: DecryptsTo(codecs, decrypt, encryptedSeedB64, text) && IsCanonicalSeed(Strip(text))
  {
    match codecs.base64Decode(encryptedSeedB64)
    case None => Err(MalformedInput)
    case Some(ciphertext) =>
      match decrypt(ciphertext)
      case None => Err(DecryptionFailed)
      case Some(plaintext) =>
        match codecs.utf8Decode(plaintext)
        case None => Err(NotUtf8)
        case Some(text) =>
          var hexSeed := Strip(text);
          if |hexSeed| != 64 || !(forall i :: 0 <= i < |hexSeed| ==> IsLowerHexDigit(hexSeed[i])) then
            Err(InvalidSeedFormat)
          else
            StripIdempotent(text);
            Ok(hexSeed)
  }

  /**
   * Whitespace around a canonical seed never causes a rejection: the seed
   * itself is returned.
   */
  lemma SurroundingWhitespaceAccepted(codecs: Codecs, decrypt: Decryptor, encryptedSeedB64: string,
                                      w1: string, seed: string, w2: string)
    requires AllSpace(w1) && AllSpace(w2) && IsCanonicalSeed(seed)
    requires DecryptsTo(codecs, decrypt, encryptedSeedB64, w1 + seed + w2)
    ensures DecryptSeed(codecs, decrypt, encryptedSeedB64) == Ok(seed)
  {
    assert !IsSpace(seed[0]) && !IsSpace(seed[63]);
    StripSurrounded(w1, seed, w2);
  }

  /**
   * Once the text is decrypted, it is rejected as "Invalid seed format" exactly
   * when its stripped form is not a canonical seed: a length other than 64
   * (0, 63 and 65 among them), an upper-case letter, or any other character.
   */
  lemma InvalidFormatExactly(codecs: Codecs, decrypt: Decryptor, encryptedSeedB64: string, text: string)
    requires DecryptsTo(codecs, decrypt, encryptedSeedB64, text)
    ensures DecryptSeed(codecs, decrypt, encryptedSeedB64) == Err(InvalidSeedFormat) <==> !IsCanonicalSeed(Strip(text))
    ensures |Strip(text)| != 64 ==> DecryptSeed(codecs, decrypt, encryptedSeedB64) == Err(InvalidSeedFormat)
    ensures (exists i :: 0 <= i < |Strip(text)| && 'A' <= Strip(text)[i] <= 'Z') ==>
      DecryptSeed(codecs, decrypt, encryptedSeedB64) == Err(InvalidSeedFormat)
  {
  }

  /** A canonical seed is a seed text for `hex_to_base32`, denoting the bytes of its digits. */
  lemma CanonicalSeedIsSeedText(seed: string)
    requires IsCanonicalSeed(seed)
    ensures Strip(seed) == seed && Lower(seed) == seed
    ensures TotpUtils.IsSeedText(seed)
    ensures TotpUtils.SeedBytes(seed) == HexBytes(seed)
  {
    CanonicalSeedUnchanged(seed);
    assert AllHexDigits(seed);
  }

  lemma CanonicalSeedUnchanged(seed: string)
    requires IsCanonicalSeed(seed)
    ensures Strip(seed) == seed && Lower(seed) == seed
  {
    assert !IsSpace(seed[0]) && !IsSpace(seed[63]);
    StripSurrounded([], seed, []);
    assert [] + seed + [] == seed;
    LowerWithoutCapitals(seed);
  }

  /**
   * Every seed `decrypt_seed` returns is accepted by `hex_to_base32`, by the
   * corrected reading and by the code as written alike.
   */
  lemma DecryptedSeedEncodes(codecs: Codecs, decrypt: Decryptor, encryptedSeedB64: string)
    requires DecryptSeed(codecs, decrypt, encryptedSeedB64).Ok?
    ensures var seed := DecryptSeed(codecs, decrypt, encryptedSeedB64).value;
      && TotpUtils.HexToBase32(seed).Ok?
      && TotpUtils.HexToBase32AsWritten(seed) == TotpUtils.HexToBase32(seed)
  {
    var seed := DecryptSeed(codecs, decrypt, encryptedSeedB64).value;
    CanonicalSeedIsSeedText(seed);
    assert NoHexGaps(TotpUtils.SeedText(seed));
    TotpUtils.AsWrittenAgreesWithoutGaps(seed);
  }

  /**
   * The two validators differ on case: a canonical seed with a letter, in
   * upper case, is refused by `decrypt_seed` yet `hex_to_base32` gives it the
   * same secret as the lower-case seed.
   */
  lemma ValidatorsDifferOnCase(codecs: Codecs, decrypt: Decryptor, encryptedSeedB64: string, seed: string, i: nat)
    requires IsCanonicalSeed(seed) && i < 64 && 'a' <= seed[i] <= 'f'
    requires DecryptsTo(codecs, decrypt, encryptedSeedB64, UpperHex(seed))
    ensures DecryptSeed(codecs, decrypt, encryptedSeedB64) == Err(InvalidSeedFormat)
    ensures TotpUtils.HexToBase32(UpperHex(seed)) == TotpUtils.HexToBase32(seed)
    ensures TotpUtils.HexToBase32(seed).Ok?
  {
    UpperSeedStripped(seed);
    UpperHexAt(seed, i);
    assert !IsLowerHexDigit(Strip(UpperHex(seed))[i]);
    SecretIgnoresCase(seed);
  }

  lemma UpperSeedStripped(seed: string)
    requires IsCanonicalSeed(seed)
    ensures Strip(UpperHex(seed)) == UpperHex(seed)
  {
    assert !IsSpace(seed[0]) && !IsSpace(seed[63]);
    UpperHexTrimmed(seed);
    StripSurrounded([], UpperHex(seed), []);
    assert [] + UpperHex(seed) + [] == UpperHex(seed);
  }

  lemma SecretIgnoresCase(seed: string)
    requires IsCanonicalSeed(seed)
    ensures TotpUtils.HexToBase32(UpperHex(seed)) == TotpUtils.HexToBase32(seed)
    ensures TotpUtils.HexToBase32(seed).Ok?
  {
    CanonicalSeedIsSeedText(seed);
    assert !IsSpace(seed[0]) && !IsSpace(seed[63]);
    TotpUtils.HexToBase32IgnoresCaseAndSpace([], seed, []);
    assert [] + UpperHex(seed) + [] == UpperHex(seed);
  }
}

=== FILE: Text.dfy ===
/**
 * The string operations the seed handling relies on: Python's `str.strip()`
 * and `str.lower()`, and the character classes used by the validators.
 * Characters are restricted to ASCII behaviour (see README, "Left out").
 */
module Text {

  /** `str.isspace()` on ASCII: TAB, LF, VT, FF, CR, the separators 0x1C-0x1F, and SPACE. */
  predicate IsSpace(c: char) {
    ('\t' <= c <= '\r') || ('\U{1C}' <= c <= '\U{1F}') || c == ' '
  }

  predicate AllSpace(s: string) {
    forall i :: 0 <= i < |s| ==> IsSpace(s[i])
  }

  /** Neither end of `s` is whitespace. */
  predicate Trimmed(s: string) {
    s == [] || (!IsSpace(s[0]) && !IsSpace(s[|s| - 1]))
  }

  /** Drops leading whitespace. */
  function StripLeft(s: string): (r: string)
    ensures |r| <= |s|
    ensures r == [] || !IsSpace(r[0])
  {
    if s != [] && IsSpace(s[0]) then StripLeft(s[1..]) else s
  }

  /** Drops trailing whitespace. */
  function StripRight(s: string): (r: string)
    ensures |r| <= |s|
    ensures r == [] || !IsSpace(r[|r| - 1])
  {
    if s != [] && IsSpace(s[|s| - 1]) then StripRight(s[..|s| - 1]) else s
  }

  lemma {:induction false} StripRightIsPrefix(s: string)
    ensures StripRight(s) == s[..|StripRight(s)|]
  {
    if s != [] && IsSpace(s[|s| - 1]) {
      StripRightIsPrefix(s[..|s| - 1]);
    }
  }

  /** `str.strip()`: `s` without the whitespace at either end. */
  function Strip(s: string): (r: string)
    ensures Trimmed(r)
    ensures |r| <= |s|
  {
    var l := StripLeft(s);
    StripRightIsPrefix(l);
    StripRight(l)
  }

  lemma {:induction false} StripLeftOfSpace(w: string, t: string)
    requires AllSpace(w)
    requires t == [] || !IsSpace(t[0])
    ensures StripLeft(w + t) == t
  {
    if w != [] {
      assert (w + t)[1..] == w[1..] + t;
      StripLeftOfSpace(w[1..], t);
    }
  }

  lemma {:induction false} StripRightOfSpace(t: string, w: string)
    requires AllSpace(w)
    requires t == [] || !IsSpace(t[|t| - 1])
    ensures StripRight(t + w) == t
  {
    if w != [] {
      assert (t + w)[..|t + w| - 1] == t + w[..|w| - 1];
      StripRightOfSpace(t, w[..|w| - 1]);
    } else {
      assert t + w == t;
    }
  }

  /**
   * Strip removes exactly the surrounding whitespace: any string made of
   * whitespace, a trimmed core and whitespace strips to that core.
   */
  lemma {:induction false} StripSurrounded(w1: string, t: string, w2: string)
    requires AllSpace(w1) && AllSpace(w2) && Trimmed(t)
    ensures Strip(w1 + t + w2) == t
  {
    if t == [] {
      assert w1 + t + w2 == w1 + w2;
      var all := w1 + w2;
      assert AllSpace(all);
      StripLeftOfSpace(all, []);
      assert all + [] == all;
      assert StripRight([]) == [];
    } else {
      assert w1 + t + w2 == w1 + (t + w2);
      StripLeftOfSpace(w1, t + w2);
      StripRightOfSpace(t, w2);
    }
  }

  /** Stripping twice is stripping once. */
  lemma StripIdempotent(s: string)
    ensures Strip(Strip(s)) == Strip(s)
  {
    var t := Strip(s);
    StripSurrounded([], t, []);
    assert [] + t + [] == t;
  }

  /** `str.lower()` on one ASCII character. */
  function LowerChar(c: char): char {
    if 'A' <= c <= 'Z' then (c as int - 'A' as int + 'a' as int) as char else c
  }

  /** The upper-case form of a hexadecimal letter; every other character is left alone. */
  function UpperHexChar(c: char): char {
    if 'a' <= c <= 'f' then (c as int - 'a' as int + 'A' as int) as char else c
  }

  /** `str.lower()`. */
  function Lower(s: string): (r: string)
    ensures |r| == |s|
  {
    if s == [] then [] else [LowerChar(s[0])] + Lower(s[1..])
  }

  /** Every hexadecimal letter of `s` in upper case. */
  function UpperHex(s: string): (r: string)
    ensures |r| == |s|
  {
    if s == [] then [] else [UpperHexChar(s[0])] + UpperHex(s[1..])
  }

  lemma {:induction false} UpperHexAt(s: string, i: nat)
    requires i < |s|
    ensures UpperHex(s)[i] == UpperHexChar(s[i])
  {
    if i > 0 {
      UpperHexAt(s[1..], i - 1);
    }
  }

  /** A digit as `int(c, 16)` accepts it, in either case. */
  predicate IsHexDigit(c: char) {
    '0' <= c <= '9' || 'a' <= c <= 'f' || 'A' <= c <= 'F'
  }

  /** A member of "0123456789abcdef". */
  predicate IsLowerHexDigit(c: char) {
    '0' <= c <= '9' || 'a' <= c <= 'f'
  }

  /** An ASCII decimal digit (`str.isdigit()` restricted to ASCII). */
  predicate IsDigit(c: char) {
    '0' <= c <= '9'
  }

  predicate AllDigits(s: string) {
    forall i :: 0 <= i < |s| ==> IsDigit(s[i])
  }

  /** The value of a hexadecimal digit. */
  function HexValue(c: char): (v: nat)
    requires IsHexDigit(c)
    ensures v < 16
  {
    if '0' <= c <= '9' then c as int - '0' as int
    else if 'a' <= c <= 'f' then c as int - 'a' as int + 10
    else c as int - 'A' as int + 10
  }

  /** Lower-casing leaves a string without capital letters unchanged. */
  lemma {:induction false} LowerWithoutCapitals(s: string)
    requires forall i :: 0 <= i < |s| ==> !('A' <= s[i] <= 'Z')
    ensures Lower(s) == s
  {
    if s != [] {
      LowerWithoutCapitals(s[1..]);
      assert s == [s[0]] + s[1..];
    }
  }

  /** Lower-casing undoes upper-casing of hex letters. */
  lemma {:induction false} LowerOfUpperHex(s: string)
    ensures Lower(UpperHex(s)) == Lower(s)
  {
    if s != [] {
      LowerOfUpperHex(s[1..]);
      assert UpperHex(s)[1..] == UpperHex(s[1..]);
    }
  }

  /** Upper-casing hex letters keeps a trimmed string trimmed. */
  lemma UpperHexTrimmed(s: string)
    requires Trimmed(s)
    ensures Trimmed(UpperHex(s))
  {
    if s != [] {
      UpperHexAt(s, 0);
      UpperHexAt(s, |s| - 1);
    }
  }
}

=== FILE: TotpUtils.dfy ===
/**
 * The TOTP helpers of the service: the seed's conversion to a Base32 secret,
 * code generation, the seconds left in a period, and verification with a
 * window of neighbouring time steps (RFC 6238 over the HOTP of RFC 4226).
 *
 * HMAC-SHA1 is not modelled: every operation takes it as the parameter `mac`,
 * which maps a key and a time-step counter to a 20-byte digest. The clock is
 * not read: the current Unix time is the parameter `now`.
 */
module TotpUtils {
  import opened Wrappers
  import opened Bytes
  import opened Text
  import opened Hex
  import Base32

  /** The time step, in seconds. */
  const Period: nat := 30
  /** The number of digits of a code. */
  const CodeDigits: nat := 6

  /** Why `hex_to_base32` raised. */
  datatype SeedError =
    | WrongLength        // "hex_seed must be exactly 64 hex characters"
    | NonHexCharacters   // "hex_seed contains non-hex characters"
    | SecretNotBase32    // the Base32 secret could not be decoded again

  /** The canonical seed text inside `s`: stripped, then lower-cased. */
  function SeedText(s: string): string {
    Lower(Strip(s))
  }

  /** `s` is accepted as a seed: 64 hex digits once stripped and lower-cased. */
  predicate IsSeedText(s: string) {
    |SeedText(s)| == 64 && AllHexDigits(SeedText(s))
  }

  /** The 32 bytes a seed text denotes. */
  function SeedBytes(s: string): (b: seq<byte>)
    requires IsSeedText(s)
    ensures |b| == 32
  {
    HexBytes(SeedText(s))
  }

  /**
   * `hex_to_base32`: strip and lower-case, demand exactly 64 characters, demand
   * hex digits only, and encode the 32 bytes in Base32 with padding. Every
   * character that is not a hex digit is rejected here; see
   * `HexToBase32AsWritten` for what `bytes.fromhex` lets through.
   */
  function HexToBase32(hexSeed: string): (r: Result<string, SeedError>)
    ensures r.Ok? <==> IsSeedText(hexSeed)
    ensures |Strip(hexSeed)| != 64 ==> r == Err(WrongLength)
    ensures |Strip(hexSeed)| == 64 && !AllHexDigits(SeedText(hexSeed)) ==> r == Err(NonHexCharacters)
    ensures r.Ok? ==> |r.value| == 56 && Base32.AllDigitChars(r.value[..52]) && r.value[52..] == "===="
    ensures r.Ok? ==> Base32.Decode(r.value) == Some(SeedBytes(hexSeed))
    ensures r.Ok? ==> r.value == Base32.Encode(SeedBytes(hexSeed))
  {
    var t := SeedText(hexSeed);
    if |t| != 64 then Err(WrongLength)
    else if !AllHexDigits(t) then Err(NonHexCharacters)
    else
      var data := HexBytes(t);
      Base32.EncodeSeedShape(data);
      Base32.DecodeEncode(data);
      Ok(Base32.Encode(data))
  }

  /**
   * `hex_to_base32` exactly as written: the character check is left to
   * `bytes.fromhex`, which skips whitespace between digit pairs.
   */
  function HexToBase32AsWritten(hexSeed: string): (r: Result<string, SeedError>)
    ensures |Strip(hexSeed)| != 64 ==> r == Err(WrongLength)
    ensures |Strip(hexSeed)| == 64 && FromHex(SeedText(hexSeed)).None? ==> r == Err(NonHexCharacters)
    ensures r.Ok? <==> |Strip(hexSeed)| == 64 && FromHex(SeedText(hexSeed)).Some?
    ensures r.Ok? ==> Base32.Decode(r.value) == FromHex(SeedText(hexSeed))
  {
    var t := SeedText(hexSeed);
    if |t| != 64 then Err(WrongLength)
    else
      match FromHex(t)
      case None => Err(NonHexCharacters)
      case Some(data) =>
        Base32.DecodeEncode(data);
        Ok(Base32.Encode(data))
  }

  /** On text without interior whitespace the two readings agree. */
  lemma AsWrittenAgreesWithoutGaps(hexSeed: string)
    requires NoHexGaps(SeedText(hexSeed))
    ensures HexToBase32AsWritten(hexSeed) == HexToBase32(hexSeed)
  {
    FromHexWithoutGaps(SeedText(hexSeed));
  }

  /** On every seed the corrected reading accepts, the code as written gives the same secret. */
  lemma AsWrittenAgreesOnSeeds(hexSeed: string)
    requires IsSeedText(hexSeed)
    ensures HexToBase32AsWritten(hexSeed) == HexToBase32(hexSeed)
  {
    assert NoHexGaps(SeedText(hexSeed));
    AsWrittenAgreesWithoutGaps(hexSeed);
  }

  /** Lower-case hex digit pairs with two spaces between them. */
  function Gapped(a: string, b: string): string {
    a + "  " + b
  }

  predicate GappedSeedParts(a: string, b: string) {
    && |a| % 2 == 0 && a != [] && b != [] && |a| + |b| == 62
    && (forall i :: 0 <= i < |a| ==> IsLowerHexDigit(a[i]))
    && (forall i :: 0 <= i < |b| ==> IsLowerHexDigit(b[i]))
  }

  lemma SeedTextOfGapped(a: string, b: string)
    requires GappedSeedParts(a, b)
    ensures Strip(Gapped(a, b)) == Gapped(a, b) && Lower(Gapped(a, b)) == Gapped(a, b)
    ensures |Gapped(a, b)| == 64
  {
    var s := Gapped(a, b);
    assert s[0] == a[0] && s[|s| - 1] == b[|b| - 1];
    StripSurrounded([], s, []);
    assert [] + s + [] == s;
    assert forall i :: 0 <= i < |s| ==> !('A' <= s[i] <= 'Z') by {
      forall i | 0 <= i < |s| ensures !('A' <= s[i] <= 'Z') {
        if i < |a| { assert s[i] == a[i]; }
        else if i >= |a| + 2 { assert s[i] == b[i - |a| - 2]; }
      }
    }
    LowerWithoutCapitals(s);
  }

  /** The corrected reading rejects a seed with interior whitespace. */
  lemma GappedSeedRejected(a: string, b: string)
    requires GappedSeedParts(a, b)
    ensures HexToBase32(Gapped(a, b)) == Err(NonHexCharacters)
  {
    var s := Gapped(a, b);
    assert s[|a|] == ' ';
    assert !AllHexDigits(s);
    SeedTextOfGapped(a, b);
  }

  /** The code as written encodes whatever `bytes.fromhex` yields for a canonical text. */
  lemma AsWrittenOfCanonical(s: string, data: seq<byte>)
    requires Strip(s) == s && Lower(s) == s && |s| == 64
    requires FromHex(s) == Some(data)
    ensures HexToBase32AsWritten(s) == Ok(Base32.Encode(data))
  {
  }

  /** `bytes.fromhex` reads the gapped seed as the 31 bytes of its digits. */
  lemma FromHexOfGapped(a: string, b: string)
    requires GappedSeedParts(a, b)
    ensures AllHexDigits(a + b) && |a + b| == 62
    ensures FromHex(Gapped(a, b)) == Some(HexBytes(a + b))
  {
    var s := Gapped(a, b);
    var gap := "  ";
    assert s == a + (gap + b);
    assert AllHexDigits(a) && AllHexDigits(b);
    FromHexPrefix(a, gap + b);
    assert forall i :: 0 <= i < |gap| ==> IsHexGap(gap[i]);
    FromHexSkipsGaps(gap, b);
    FromHexWithoutGaps(b);
    HexBytesAppend(a, b);
  }

  /**
   * A 64-character seed with two spaces between digit pairs, such as "00",
   * two spaces and sixty '0': the code as written accepts it and yields the
   * secret of 31 bytes, not 32.
   */
  lemma AsWrittenAcceptsInteriorSpace(a: string, b: string)
    requires GappedSeedParts(a, b)
    ensures HexToBase32AsWritten(Gapped(a, b)).Ok?
    ensures |HexBytes(a + b)| == 31
    ensures Base32.Decode(HexToBase32AsWritten(Gapped(a, b)).value) == Some(HexBytes(a + b))
  {
    FromHexOfGapped(a, b);
    var data := HexBytes(a + b);
    Base32.DecodeEncode(data);
    SeedTextOfGapped(a, b);
    AsWrittenOfCanonical(Gapped(a, b), data);
  }

  /** The dynamic truncation of section 5.3 of RFC 4226: 31 bits picked by the last nibble. */
  function DynamicTruncate(digest: seq<byte>): (v: nat)
    requires |digest| == 20
    ensures v < 0x8000_0000
  {
    var offset := digest[19] % 16;
    var b0, b1, b2, b3: int := digest[offset], digest[offset + 1], digest[offset + 2], digest[offset + 3];
    (b0 % 128) * 0x100_0000 + b1 * 0x1_0000 + b2 * 0x100 + b3
  }

  function Pow10(k: nat): (p: nat)
    ensures p >= 1
  {
    if k == 0 then 1 else 10 * Pow10(k - 1)
  }

  /** The last `k` decimal digits of `n`, zero-padded on the left. */
  function DecimalString(n: nat, k: nat): (r: string)
    ensures |r| == k && AllDigits(r)
  {
    if k == 0 then [] else DecimalString(n / 10, k - 1) + [('0' as int + n % 10) as char]
  }

  /** The number a string of decimal digits denotes. */
  function DecimalValue(s: string): (v: nat)
    requires AllDigits(s)
    ensures v < Pow10(|s|)
  {
    if s == [] then 0 else 10 * DecimalValue(s[..|s| - 1]) + (s[|s| - 1] as int - '0' as int)
  }

  lemma {:induction false} DecimalValueOfDecimalString(n: nat, k: nat)
    requires n < Pow10(k)
    ensures DecimalValue(DecimalString(n, k)) == n
  {
    if k > 0 {
      var r := DecimalString(n, k);
      assert r[..k - 1] == DecimalString(n / 10, k - 1);
      DecimalValueOfDecimalString(n / 10, k - 1);
    }
  }

  /** A truncated value as a code: modulo 10^6, written with exactly six digits. */
  function FormatCode(v: nat): (code: string)
    ensures |code| == CodeDigits && AllDigits(code)
    ensures DecimalValue(code) == v % 1_000_000
  {
    assert Pow10(6) == 1_000_000;
    DecimalValueOfDecimalString(v % 1_000_000, CodeDigits);
    DecimalString(v % 1_000_000, CodeDigits)
  }

  /** HMAC-SHA1 over a key and a counter (RFC 2104), left abstract. */
  type Hmac = (seq<byte>, nat) -> Digest

  type Digest = d: seq<byte> | |d| == 20 witness seq(20, _ => 0)

  /** The HOTP value of RFC 4226 for one counter. */
  function Otp(mac: Hmac, key: seq<byte>, counter: nat): (code: string)
    ensures |code| == CodeDigits && AllDigits(code)
    ensures DecimalValue(code) == DynamicTruncate(mac(key, counter)) % 1_000_000
  {
    FormatCode(DynamicTruncate(mac(key, counter)))
  }

  /** The time step of section 4.2 of RFC 6238 with T0 = 0. */
  function TimeStep(now: nat): nat {
    now / Period
  }

  /**
   * `generate_totp_code`: the code of the current time step, keyed with the
   * secret that `hex_to_base32` produces, decoded again as pyotp does.
   */
  function GenerateTotpCode(mac: Hmac, hexSeed: string, now: nat): (r: Result<string, SeedError>)
    ensures r.Ok? <==> IsSeedText(hexSeed)
    ensures r.Err? ==> r == Err(HexToBase32(hexSeed).error)
    ensures r.Ok? ==> r.value == Otp(mac, SeedBytes(hexSeed), TimeStep(now))
    ensures r.Ok? ==> |r.value| == CodeDigits && AllDigits(r.value)
  {
    var secret :- HexToBase32(hexSeed);
    match Base32.Decode(secret)
    case None => Err(SecretNotBase32)
    case Some(key) => Ok(Otp(mac, key, TimeStep(now)))
  }

  /**
   * `totp_seconds_remaining`: seconds until the next time step begins. It is
   * never 0: at the very start of a step it is a full period.
   */
  function SecondsRemaining(now: nat): (r: nat)
    ensures 1 <= r <= Period
    ensures r == Period <==> now % Period == 0
    ensures TimeStep(now + r) == TimeStep(now) + 1
    ensures forall later: nat :: now <= later < now + r ==> TimeStep(later) == TimeStep(now)
  {
    var q := now / Period;
    assert now == Period * q + now % Period;
    assert now + (Period - now % Period) == Period * (q + 1);
    forall later: nat | now <= later < now + (Period - now % Period)
      ensures TimeStep(later) == q
    {
      assert Period * q <= later < Period * (q + 1);
    }
    Period - now % Period
  }

  datatype Payload = Payload(code: string, validFor: nat)

  /**
   * `generate_totp_payload`: the current code and how long it stays current.
   * The code is the one generated at every instant until `validFor` seconds
   * have passed.
   */
  function GenerateTotpPayload(mac: Hmac, hexSeed: string, now: nat): (r: Result<Payload, SeedError>)
    ensures r.Ok? <==> IsSeedText(hexSeed)
    ensures r.Ok? ==> |r.value.code| == CodeDigits && AllDigits(r.value.code)
    ensures r.Ok? ==> r.value.validFor == SecondsRemaining(now) && 1 <= r.value.validFor <= Period
    ensures r.Ok? ==> forall later: nat :: now <= later < now + r.value.validFor ==>
      GenerateTotpCode(mac, hexSeed, later) == Ok(r.value.code)
  {
    var code :- GenerateTotpCode(mac, hexSeed, now);
    Ok(Payload(code, SecondsRemaining(now)))
  }

  /**
   * pyotp's window scan: counters `lo` to `hi` in increasing order, stopping at
   * the first match; a negative counter raises (`None`).
   */
  function ScanWindow(mac: Hmac, key: seq<byte>, code: string, lo: int, hi: int): Option<bool>
    decreases hi + 1 - lo
  {
    if lo > hi then Some(false)
    else if lo < 0 then None
    else if Otp(mac, key, lo) == code then Some(true)
    else ScanWindow(mac, key, code, lo + 1, hi)
  }

  /** Some counter in `[lo, hi]` gives `code`. */
  predicate MatchesIn(mac: Hmac, key: seq<byte>, code: string, lo: int, hi: int) {
    exists c: nat :: lo <= c <= hi && Otp(mac, key, c) == code
  }

  lemma {:induction false} ScanWindowMeaning(mac: Hmac, key: seq<byte>, code: string, lo: int, hi: int)
    ensures ScanWindow(mac, key, code, lo, hi) ==
      if lo > hi then Some(false)
      else if lo < 0 then None
      else Some(MatchesIn(mac, key, code, lo, hi))
    decreases hi + 1 - lo
  {
    if lo <= hi && lo >= 0 {
      if Otp(mac, key, lo) == code {
        assert MatchesIn(mac, key, code, lo, hi);
      } else {
        ScanWindowMeaning(mac, key, code, lo + 1, hi);
        if lo + 1 > hi {
          assert !MatchesIn(mac, key, code, lo, hi);
        } else {
          assert MatchesIn(mac, key, code, lo, hi) <==> MatchesIn(mac, key, code, lo + 1, hi);
        }
      }
    }
  }

  /** Why `verify_totp_code` raised. */
  datatype VerifyError =
    | EmptyCode           // "code must be a non-empty string"
    | BadSeed(cause: SeedError)

  /**
   * The part of `verify_totp_code` inside its `try`: pyotp decodes the secret
   * and scans the window; `None` is an exception, which becomes `False`.
   */
  function TotpVerify(mac: Hmac, secret: string, code: string, window: int, now: nat): Option<bool> {
    match Base32.Decode(secret)
    case None => None
    case Some(key) =>
      var t := TimeStep(now);
      ScanWindow(mac, key, code, t - window, t + window)
  }

  /** The window test with the seed's key: no counter below zero, and a match in `[t-w, t+w]`. */
  predicate InWindow(mac: Hmac, key: seq<byte>, code: string, t: nat, window: int) {
    t - window >= 0 && MatchesIn(mac, key, code, t - window, t + window)
  }

  /**
   * `verify_totp_code`: an empty code raises; a code that is not six digits is
   * refused before the seed is looked at; a bad seed raises; otherwise the
   * window decides.
   */
  function VerifyTotpCode(mac: Hmac, hexSeed: string, code: string, window: int, now: nat): (r: Result<bool, VerifyError>)
    ensures code == [] ==> r == Err(EmptyCode)
    ensures code != [] && !(|code| == CodeDigits && AllDigits(code)) ==> r == Ok(false)
    ensures r.Err? <==> code == [] || (|code| == CodeDigits && AllDigits(code) && !IsSeedText(hexSeed))
    ensures r == Ok(true) ==> |code| == CodeDigits && AllDigits(code)
  {
    if code == [] then Err(EmptyCode)
    else if |code| != CodeDigits || !AllDigits(code) then Ok(false)
    else
      match HexToBase32(hexSeed)
      case Err(e) => Err(BadSeed(e))
      case Ok(secret) =>
        match TotpVerify(mac, secret, code, window, now)
        case Some(found) => Ok(found)
        case None => Ok(false)
  }

  /**
   * For a well-formed code and seed, verification is exactly the window test:
   * a counter in `[t-w, t+w]` whose code matches, provided the lowest counter
   * is not negative.
   */
  lemma VerifyMeansInWindow(mac: Hmac, hexSeed: string, code: string, window: int, now: nat)
    requires |code| == CodeDigits && AllDigits(code)
    requires IsSeedText(hexSeed)
    ensures VerifyTotpCode(mac, hexSeed, code, window, now) ==
      Ok(InWindow(mac, SeedBytes(hexSeed), code, TimeStep(now), window))
  {
    var t := TimeStep(now);
    ScanWindowMeaning(mac, SeedBytes(hexSeed), code, t - window, t + window);
  }

  /** A code generated at a time whose step is within the window verifies. */
  lemma NearbyCodeVerifies(mac: Hmac, hexSeed: string, generatedAt: nat, window: int, now: nat)
    requires IsSeedText(hexSeed)
    requires TimeStep(now) - window <= TimeStep(generatedAt) <= TimeStep(now) + window
    requires TimeStep(now) >= window
    ensures GenerateTotpCode(mac, hexSeed, generatedAt).Ok?
    ensures VerifyTotpCode(mac, hexSeed, GenerateTotpCode(mac, hexSeed, generatedAt).value, window, now) == Ok(true)
  {
    var code := GenerateTotpCode(mac, hexSeed, generatedAt).value;
    VerifyMeansInWindow(mac, hexSeed, code, window, now);
    var c: nat := TimeStep(generatedAt);
    assert Otp(mac, SeedBytes(hexSeed), c) == code;
  }

  /** The code of the current step verifies with any window the clock allows. */
  lemma CurrentCodeVerifies(mac: Hmac, hexSeed: string, window: int, now: nat)
    requires IsSeedText(hexSeed)
    requires 0 <= window <= TimeStep(now)
    ensures VerifyTotpCode(mac, hexSeed, GenerateTotpCode(mac, hexSeed, now).value, window, now) == Ok(true)
  {
    NearbyCodeVerifies(mac, hexSeed, now, window, now);
  }

  /**
   * In the first `window` steps after the epoch pyotp's scan starts at a
   * negative counter and raises, so every code is refused.
   */
  lemma EarlyEpochRefusesAll(mac: Hmac, hexSeed: string, code: string, window: int, now: nat)
    requires IsSeedText(hexSeed) && code != []
    requires 0 < window && TimeStep(now) < window
    ensures VerifyTotpCode(mac, hexSeed, code, window, now) == Ok(false)
  {
  }

  /** A negative window scans no step at all, so every code is refused. */
  lemma NegativeWindowRefusesAll(mac: Hmac, hexSeed: string, code: string, window: int, now: nat)
    requires IsSeedText(hexSeed) && code != []
    requires window < 0
    ensures VerifyTotpCode(mac, hexSeed, code, window, now) == Ok(false)
  {
  }

  /**
   * Case and surrounding whitespace do not matter to `hex_to_base32`: a seed
   * with its hex letters upper-cased and whitespace around it gives the same
   * secret.
   */
  lemma HexToBase32IgnoresCaseAndSpace(w1: string, t: string, w2: string)
    requires AllSpace(w1) && AllSpace(w2) && Trimmed(t)
    ensures HexToBase32(w1 + UpperHex(t) + w2) == HexToBase32(t)
  {
    UpperHexTrimmed(t);
    StripSurrounded(w1, UpperHex(t), w2);
    StripSurrounded([], t, []);
    assert [] + t + [] == t;
    LowerOfUpperHex(t);
  }
}

=== FILE: Wrappers.dfy ===
/** Failure-carrying values used for the source's exceptions and error returns. */
module Wrappers {

  datatype Option<+T> = None | Some(value: T)

  datatype Result<+R, +E> = Ok(value: R) | Err(error: E) {
    predicate IsFailure() {
      Err?
    }

    function PropagateFailure<U>(): Result<U, E>
      requires Err?
    {
      Err(error)
    }

    function Extract(): R
      requires Ok?
    {
      value
    }
  }
}
